=== FILE: README.md ===
# Blog store: a Dafny model of the GraphQL tutorial server's resolvers

The server keeps three in-memory arrays (users, posts and comments) and
exposes them through GraphQL resolvers:

- the `Query` resolvers `users`, `posts` and `comments`;
- the relational resolvers `Post.author`, `Post.comments`, `User.posts`,
  `User.comments`, `Comment.author` and `Comment.post`;
- the `Mutation` resolvers `createUser`, `createPost` and `createComment`
  of `index.js`;
- the extended `Mutation` resolvers of `src/resolvers/Mutation.js`. These
  add `deleteUser`, `updateUser`, `deletePost` and `deleteComment`, and a
  `createComment` that also refuses duplicate comments.

The model represents the store as the immutable record `Blog.Db` of three
sequences. Every resolver is a pure function. A mutation returns either
`Failure(error)` or `Success(Changed(newDb, row))`, where `row` is the row
the resolver hands back. Each distinct thrown message is one `Blog.Error`
constructor, and `Blog.Message` gives its exact text. The id that
`uuidv4()` would generate is a parameter `newId`. A precondition says that
no row in the collection already uses it.

Modules:

- `Wrappers`: `Option` and `Result`.
- `Seqs`: the array primitives `filter`, `find`, `findIndex` and
  `splice(i, 1)`, each specified independently of its body.
  - `Selects(r, xs, keep)` says that `r` is the order-preserving
    subsequence of `xs` with exactly the kept elements, each with its
    multiplicity.
- `Text`: ASCII `toLowerCase` and `includes`.
- `Blog`: rows, store, inputs, errors, and the store invariants.
  - `ReferencesResolve`: every foreign key names an existing row.
  - `UniqueIds`, `UniqueEmails` and `UniqueTriples`.
- `Query`, `Joins` and `IndexMutation`: the resolvers of `index.js`.
- `Mutation`: the resolvers of `src/resolvers/Mutation.js`.
- `AsWritten`: `createUser` modelled exactly as written.

`src/resolvers/Mutation.js` has its own `createUser` and `createPost`. They
behave like those of `index.js`, so the model defines them once, in
`IndexMutation`. Several functions in that file (`createUser` and
`deleteUser`) read or splice an undeclared global `users` instead of
`db.users`. The model uses the store's users there; see "Left out".

## Model

| member | source | states |
|---|---|---|
| Seqs.Filter | index.js:246 | `filter` returns exactly the elements the callback keeps, in their original order and each as often as it occurs; the same primitive serves index.js lines 157, 164, 170, 251 and 254 and Mutation.js lines 25, 30 and 87 |
| Seqs.Find | index.js:243 | `find` comes back empty exactly when no element matches, otherwise it is the first matching element; `some` is `find` coming back non-empty (index.js line 193, Mutation.js lines 5 and 43) |
| Seqs.FindIndex | src/resolvers/Mutation.js:81 | `findIndex` is -1 exactly when no element matches, otherwise the index of the first match (also Mutation.js lines 19 and 117) |
| Seqs.RemoveAt | src/resolvers/Mutation.js:85 | `splice(i, 1)` drops the element at `i`, keeps the elements before it in place and moves the ones after it down by one (also Mutation.js lines 23 and 122) |
| Text.Lower | index.js:157 | `toLowerCase` keeps the length, replaces every ASCII upper-case letter by its lower-case partner and leaves every other character alone, so no upper-case ASCII letter remains (ASCII only, see Left out) |
| Text.Includes | index.js:157 | `includes` holds exactly when the query occurs as a contiguous substring at some position |
| Query.Users | index.js:153-158 | an absent, null or empty query returns all users; otherwise exactly the users whose lower-cased name includes the lower-cased query, in store order, with multiplicity |
| Query.Posts | index.js:160-165 | an absent or empty query returns all posts; otherwise exactly the posts whose id equals the query, in store order |
| Query.Comments | index.js:166-172 | an absent or empty `pk` returns all comments; otherwise exactly the comments whose id equals `pk`, in store order |
| Query.UsersIgnoresQueryCase | index.js:157 | searching for a query and for its lower-cased form returns the same users |
| Query.UsersFindsOwnName | index.js:153-158 | every stored user is returned when searched by its own name |
| Query.PostsById | index.js:160-165 | with unique post ids, an id query returns at most one post: the post with that id if there is one, otherwise nothing |
| Query.CommentsById | index.js:166-172 | with unique comment ids, a `pk` query returns at most one comment: the comment with that id if there is one, otherwise nothing |
| Joins.PostAuthor | index.js:242-244 | `Post.author` is empty exactly when no user has the post's author id; otherwise it is the first such user |
| Joins.PostComments | index.js:245-247 | `Post.comments` is exactly the comments whose `post` is the post's id, in store order |
| Joins.UserPosts | index.js:250-252 | `User.posts` is exactly the posts whose `author` is the user's id, in store order |
| Joins.UserComments | index.js:253-255 | `User.comments` is exactly the comments whose `author` is the user's id, in store order |
| Joins.CommentAuthor | index.js:258-260 | `Comment.author` is empty exactly when no user has the comment's author id; otherwise it is the first such user |
| Joins.CommentPost | index.js:261-263 | `Comment.post` is empty exactly when no post has the comment's post id; otherwise it is the first such post |
| Joins.JoinsResolve | index.js:241-264 | when every reference resolves, `Post.author`, `Comment.author` and `Comment.post` never come back empty |
| Joins.UserPostsInvertsPostAuthor | index.js:242-252 | with unique user ids, a post is in `User.posts` of a user exactly when its `Post.author` is that user |
| Joins.UserCommentsInvertsCommentAuthor | index.js:253-260 | with unique user ids, a comment is in `User.comments` of a user exactly when its `Comment.author` is that user |
| Joins.PostCommentsInvertsCommentPost | index.js:245-263 | with unique post ids, a comment is in `Post.comments` of a post exactly when its `Comment.post` is that post |
| IndexMutation.CreateUser | index.js:192-204 | the intended `...args.data` shape (as written, see AsWritten.CreateUser): fails with "A user with … already exists" exactly when some user has the email; otherwise it appends one user with the new id at the end and leaves posts and comments unchanged |
| IndexMutation.CreatePost | index.js:205-219 | fails with "Author not found!" exactly when no user has the author id; otherwise it appends one post with the new id at the end and leaves users and comments unchanged |
| IndexMutation.CreateComment | index.js:220-238 | checks the author first ("The user does not exist"), then that a published post with the id exists ("The post not found"); otherwise it appends one comment and leaves users and posts unchanged |
| IndexMutation.CreateUserThenSameEmailFails | index.js:193-196 | for the intended `...args.data` shape (as written, see AsWritten.AcceptsEmailTwice): once a user is created, creating another user with the same email fails with the duplicate-email error |
| IndexMutation.CreateUserKeepsInvariants | src/resolvers/Mutation.js:4-16 | for the intended `...args.data` shape, `createUser` keeps ids unique, emails unique and every reference resolved |
| IndexMutation.CreatePostKeepsInvariants | src/resolvers/Mutation.js:64-78 | `createPost` keeps ids unique and every reference resolved |
| IndexMutation.CreateCommentKeepsInvariants | index.js:220-238 | `createComment` keeps ids unique and every reference resolved |
| IndexMutation.CreatePostExtendsAuthorPosts | index.js:211-217 | after `createPost`, `User.posts` of the author gains the new post at its end; every other user's posts are unchanged |
| IndexMutation.CreatePostThenQueryById | index.js:211-217 | after `createPost`, the `posts` query for the new id returns exactly the new post |
| IndexMutation.CreateCommentExtendsJoins | index.js:232-237 | after `createComment`, `Post.comments` of its post and `User.comments` of its author each gain the new comment at the end; all other joins are unchanged |
| Mutation.DeleteUser | src/resolvers/Mutation.js:18-32 | fails with "user not found" exactly when no user has the id; otherwise it splices out the first user with the id, keeps exactly the posts by other authors and the comments by other authors, and returns the deleted user |
| Mutation.DeleteUserCascading | src/resolvers/Mutation.js:25-28 | the intended cascade: as `DeleteUser`, but it also drops every comment on a post the user wrote |
| Mutation.UpdateUser | src/resolvers/Mutation.js:34-62 | fails with "User not found" on an unknown id. Otherwise it fails with "Email already taken" when a supplied email is held by any user, the target included. Otherwise it replaces only the first user with the id. A string name or email is overwritten; `age` is overwritten unless undefined, so `null` clears it. Every other row is unchanged |
| Mutation.DeletePost | src/resolvers/Mutation.js:80-90 | fails with "Post does not exist" exactly when no post has the id; otherwise it splices out the first post with the id, drops exactly the comments on that id, and leaves users unchanged |
| Mutation.CreateComment | src/resolvers/Mutation.js:92-115 | rejects, in order: a missing user, a missing or unpublished post, then an existing comment with the same text, author and post. On success it behaves as the plain `createComment` |
| Mutation.DeleteComment | src/resolvers/Mutation.js:116-125 | fails with "Comment not found" exactly when no comment has the id; otherwise it splices out the first comment with the id and leaves users and posts unchanged |
| Mutation.DeleteUserKeepsOtherUsers | src/resolvers/Mutation.js:19-23 | `deleteUser` keeps every user with a different id and adds none |
| Mutation.DeleteUserKeepsAuthorsResolved | src/resolvers/Mutation.js:23-30 | when every post and comment has an existing author beforehand, that still holds after `deleteUser`, also on stores where an earlier delete left a comment on a missing post |
| Mutation.DeleteUserKeepsUniqueness | src/resolvers/Mutation.js:18-31 | `deleteUser` as written only removes rows, so it keeps ids, emails and comment triples unique |
| Mutation.DeleteUserCanOrphanComments | src/resolvers/Mutation.js:25-30 | a concrete store where every reference resolves before `deleteUser` but not after: one user's comment on a deleted user's post is left pointing at a missing post |
| Mutation.DeleteUserCascadingKeepsInvariants | src/resolvers/Mutation.js:25-30 | the cascading `deleteUser` keeps every reference resolved and every id unique |
| Mutation.DeleteUserLeavesNoTrace | src/resolvers/Mutation.js:18-31 | with unique ids, after `deleteUser` no user has the id, and the deleted user's `User.posts` and `User.comments` are empty |
| Mutation.UpdateUserKeepsIdsInPlace | src/resolvers/Mutation.js:42-58 | a successful `updateUser` changes no user's id and no post or comment |
| Mutation.UpdateUserKeepsEmailsUnique | src/resolvers/Mutation.js:42-48 | because a supplied email must be held by no user, `updateUser` keeps emails unique |
| Mutation.UpdateUserKeepsInvariants | src/resolvers/Mutation.js:42-58 | `updateUser` keeps ids unique, emails unique and every reference resolved |
| Mutation.UpdateUserEmptyPatchChangesNothing | src/resolvers/Mutation.js:42-60 | an update that supplies no field succeeds, returns the user and leaves the store unchanged |
| Mutation.UpdateUserOwnEmailFails | src/resolvers/Mutation.js:42-46 | setting a user's email to the email it already has fails with "Email already taken" |
| Mutation.DeletePostKeepsInvariants | src/resolvers/Mutation.js:80-90 | `deletePost` keeps every reference resolved and every id unique |
| Mutation.DeletePostLeavesNoTrace | src/resolvers/Mutation.js:85-87 | with unique ids, after `deletePost` the `posts` query for the id and the deleted post's `Post.comments` are both empty |
| Mutation.CreateCommentKeepsTriplesUnique | src/resolvers/Mutation.js:92-115 | the duplicate check keeps (text, author, post) triples unique on its own; when ids were unique and every reference resolved before, both still hold after |
| Mutation.CreateCommentTwiceFails | src/resolvers/Mutation.js:105-107 | posting the same comment again, under any new id, fails with "You already posted the comment" |
| Mutation.DeleteCommentKeepsOrder | src/resolvers/Mutation.js:117-124 | `deleteComment` keeps the other comments in their relative order and removes exactly one occurrence of the deleted comment |
| Mutation.DeleteCommentKeepsInvariants | src/resolvers/Mutation.js:116-125 | `deleteComment` keeps every reference resolved and every id unique |
| Mutation.CreateCommentThenDelete | src/resolvers/Mutation.js:109-124 | deleting a comment right after creating it gives back the original store and the created comment |
| Mutation.CreatePostThenDelete | src/resolvers/Mutation.js:70-89 | while no comment is on the new id, deleting a post right after creating it gives back the original store and the created post |
| Mutation.CreateUserThenDelete | src/resolvers/Mutation.js:10-31 | while no post or comment is by the new id, deleting a user right after creating it gives back the original store and the created user |
| AsWritten.CreateUser | index.js:192-204 | `createUser` as written: the duplicate check reads each stored object's top-level email, and the appended object is the spread of `args`, so its email is nested |
| AsWritten.AcceptsEmailTwice | index.js:193-202 | as written, the same input succeeds twice in a row, leaving two users with the same supplied email |

## Left out

- Server start-up, the SDL schema text and GraphQL's own checks (argument
  types, non-null results) are framework work, not resolver logic.
- `uuidv4()` is random. The new id is a parameter, and a precondition
  says it is not yet used in its collection.
- `Subscription.count` (`src/resolvers/Subscription.js`) is a timer and a
  pub/sub iterator. It is asynchronous I/O, so it is not modelled.
- The fixed-data `me` and `post` query resolvers return constants and
  never read the store.
- Text.Lower: folds only the ASCII letters A–Z. JavaScript's
  `toLowerCase` also folds other Unicode letters.
- In `src/resolvers/Mutation.js`, `createUser` and `deleteUser` use the
  undeclared global `users`. Run as an ES module, this throws a
  `ReferenceError`. The model reads and changes `db.users` instead, which
  is what these functions evidently mean.
- Returned rows alias the stored objects in JavaScript, so a caller could
  change the store through them. Rows here are immutable values.
- IndexMutation.CreateUser: models the intended `{ id, ...args.data }`,
  not the `{ id, ...args }` that index.js:198-201 stores. As written, the
  stored email is nested under `data`, so the duplicate-email check never
  refuses anything; `AsWritten.CreateUser` keeps that version.
- A user stored by the as-written `createUser` has no top-level `name`.
  The `users` query would throw when it lower-cases that name. The model
  keeps only the `AsWritten` module on that shape.

## Findings

The code shows what two resolvers are meant to do, and does neither in
full. The `emailTaken` checks (index.js:193-196 and
src/resolvers/Mutation.js:43-46) show that emails are meant to be unique.
The `db.comments.filter(comment => comment.post !== post.id)` call inside
the post callback of `deleteUser` (src/resolvers/Mutation.js:26) shows
that the comments on the deleted user's posts are meant to go too. The
model keeps both versions of each:

- For `createUser`, the store operations use the intended flat user.
  `AsWritten` keeps the code as written.
- For `deleteUser`, `Mutation.DeleteUser` follows the code.
  `Mutation.DeleteUserCascading` is the corrected definition beside it.

| source | as written | input that shows it | evidently intended | confidence | as-written member | corrected member |
|---|---|---|---|---|---|---|
| index.js:198-201 and src/resolvers/Mutation.js:10-13 | the new user is `{ id, ...args }`, so the email is nested under `data` and the duplicate-email check never sees it | create a user with email `a@x`, then create another with the same `a@x`: both succeed | spread `args.data`, so a second user with the same email is refused | high, not executed | AsWritten.CreateUser, shown by AsWritten.AcceptsEmailTwice | IndexMutation.CreateUser, proved by IndexMutation.CreateUserThenSameEmailFails |
| src/resolvers/Mutation.js:25-28 | the `db.comments.filter` inside the post callback discards its result, so comments on the deleted user's posts survive | users 1 and 2; post 10 by user 1; comment 20 by user 2 on post 10; delete user 1: comment 20 points at the missing post 10 | the user's posts are deleted together with the comments on them, keeping every reference resolved | high, not executed | Mutation.DeleteUser, shown by Mutation.DeleteUserCanOrphanComments | Mutation.DeleteUserCascading, proved by Mutation.DeleteUserCascadingKeepsInvariants |

=== FILE: as_written.dfy ===
/** `createUser` as written in both index.js and src/resolvers/Mutation.js.
    It builds the new user with `{ id, ...args }` rather than
    `{ id, ...args.data }`, so the stored object has `id` and a nested `data`
    and no top-level `email`. The duplicate-email check reads the top-level
    `email` of each stored user, so it never matches a user created this
    way. `IndexMutation.CreateUser` is the intended behaviour that the rest
    of the model uses. */
module AsWritten {
  import opened Wrappers
  import opened Blog
  import Seqs

  /** A stored user object: one with the fields at the top (the seeded
      users), or one built by spreading `args` (id plus nested `data`). */
  datatype StoredUser = Flat(user: User) | Spread(id: string, data: UserInput)

  /** The object's top-level `email` property; `None` is `undefined`. */
  function TopLevelEmail(u: StoredUser): Option<string>
  {
    match u
    case Flat(user) => Some(user.email)
    case Spread(_, _) => None
  }

  /** The email the caller supplied, wherever the object keeps it. */
  function SuppliedEmail(u: StoredUser): string
  {
    match u
    case Flat(user) => user.email
    case Spread(_, data) => data.email
  }

  function HasTopLevelEmail(email: string): StoredUser -> bool
  {
    (u: StoredUser) => TopLevelEmail(u) == Some(email)
  }

  /** `createUser` as written: checks the top-level emails, then appends the
      spread object. */
  function CreateUser(users: seq<StoredUser>, newId: string, data: UserInput)
    : (r: Result<(seq<StoredUser>, StoredUser), Error>)
    ensures r.Failure? <==> exists u :: u in users && TopLevelEmail(u) == Some(data.email)
    ensures r.Success? ==> r.value.1 == Spread(newId, data) && r.value.0 == users + [r.value.1]
  {
    if Seqs.Find(users, HasTopLevelEmail(data.email)).Some? then
      Failure(EmailTaken(data.email))
    else
      var user := Spread(newId, data);
      Success((users + [user], user))
  }

  /** The check is blind to the users it creates: the same input succeeds a
      second time, leaving two users with the same supplied email. */
  lemma AcceptsEmailTwice(users: seq<StoredUser>, newId: string, data: UserInput, newId2: string)
    requires CreateUser(users, newId, data).Success?
    ensures
      var once := CreateUser(users, newId, data).value.0;
      var twice := CreateUser(once, newId2, data);
      && twice.Success?
      && |twice.value.0| == |users| + 2
      && SuppliedEmail(twice.value.0[|users|]) == SuppliedEmail(twice.value.0[|users| + 1]) == data.email
  {
    var once := CreateUser(users, newId, data).value.0;
    assert forall u :: u in once ==> u in users || u == Spread(newId, data);
  }
}

=== FILE: blog.dfy ===
/** The in-memory blog store: three collections of rows (users, posts,
    comments) that the resolvers read and change, the errors they raise, and
    the integrity conditions the mutations are meant to keep. */
module Blog {
  import opened Wrappers
  import Seqs

  /** A stored user. `age` is optional: `None` stands for both an absent and
      a `null` age, which the API reports alike. */
  datatype User = User(id: string, name: string, email: string, age: Option<int>)

  /** A stored post; `author` is the id of a user. */
  datatype Post = Post(id: string, title: string, body: string, author: string, published: bool)

  /** A stored comment; `author` is the id of a user, `post` the id of a post. */
  datatype Comment = Comment(id: string, text: string, author: string, post: string)

  /** The three arrays, in insertion order. */
  datatype Db = Db(users: seq<User>, posts: seq<Post>, comments: seq<Comment>)

  /** The new store after a successful mutation, with the row the resolver
      returns (the created, updated or deleted one). */
  datatype Changed<T> = Changed(db: Db, row: T)

  /** Every `Error` a resolver throws, one constructor per distinct message. */
  datatype Error =
    | EmailTaken(email: string)
    | AuthorNotFound
    | UserDoesNotExist
    | PostNotFound
    | AlreadyCommented
    | NoUserToDelete
    | NoUserToUpdate
    | EmailAlreadyTaken
    | PostDoesNotExist
    | CommentNotFound

  /** The message text of each error. */
  function Message(e: Error): string
  {
    match e
    case EmailTaken(email) => "A user with " + email + " already exists"
    case AuthorNotFound => "Author not found!"
    case UserDoesNotExist => "The user does not exist"
    case PostNotFound => "The post not found"
    case AlreadyCommented => "You already posted the comment"
    case NoUserToDelete => "user not found"
    case NoUserToUpdate => "User not found"
    case EmailAlreadyTaken => "Email already taken"
    case PostDoesNotExist => "Post does not exist"
    case CommentNotFound => "Comment not found"
  }

  // Arguments of the mutations (`args.data` and friends).

  datatype UserInput = UserInput(name: string, email: string, age: Option<int>)
  datatype PostInput = PostInput(title: string, body: string, author: string, published: bool)
  datatype CommentInput = CommentInput(text: string, author: string, post: string)

  /** The `age` of an update: left out, given as `null`, or given a number. */
  datatype AgeArg = AgeUndefined | AgeNull | AgeValue(n: int)

  /** The `data` of `updateUser`; `None` marks a field that is not a string. */
  datatype UserPatch = UserPatch(name: Option<string>, email: Option<string>, age: AgeArg)

  // The callbacks handed to `find`, `filter` and `findIndex`, one named
  // factory each so that a body and the lemmas about it share one term.

  function UserHasId(id: string): User -> bool { (u: User) => u.id == id }
  function UserHasEmail(email: string): User -> bool { (u: User) => u.email == email }
  function PostHasId(id: string): Post -> bool { (p: Post) => p.id == id }
  function PublishedPostHasId(id: string): Post -> bool { (p: Post) => p.id == id && p.published }
  function PostByAuthor(id: string): Post -> bool { (p: Post) => p.author == id }
  function CommentHasId(id: string): Comment -> bool { (c: Comment) => c.id == id }
  function CommentByAuthor(id: string): Comment -> bool { (c: Comment) => c.author == id }
  function CommentOnPost(id: string): Comment -> bool { (c: Comment) => c.post == id }
  function SameTriple(data: CommentInput): Comment -> bool
  {
    (c: Comment) => Triple(c) == InputTriple(data)
  }

  // Existence tests.

  predicate HasUser(db: Db, id: string) { exists u :: u in db.users && u.id == id }
  predicate HasPost(db: Db, id: string) { exists p :: p in db.posts && p.id == id }
  predicate HasPublishedPost(db: Db, id: string) { exists p :: p in db.posts && p.id == id && p.published }
  predicate HasComment(db: Db, id: string) { exists c :: c in db.comments && c.id == id }
  predicate EmailInUse(db: Db, email: string) { exists u :: u in db.users && u.email == email }
  predicate HasTriple(db: Db, data: CommentInput)
  {
    exists c :: c in db.comments && Triple(c) == InputTriple(data)
  }

  // Invariants of the store.

  /** Every foreign key names an existing row: a post's author, a comment's
      author and a comment's post. */
  predicate ReferencesResolve(db: Db)
  {
    && (forall p :: p in db.posts ==> HasUser(db, p.author))
    && (forall c :: c in db.comments ==> HasUser(db, c.author) && HasPost(db, c.post))
  }

  function UserId(u: User): string { u.id }
  function PostId(p: Post): string { p.id }
  function CommentId(c: Comment): string { c.id }

  /** No id occurs twice within a collection. */
  ghost predicate UniqueIds(db: Db)
  {
    && Seqs.KeysDistinct(db.users, UserId)
    && Seqs.KeysDistinct(db.posts, PostId)
    && Seqs.KeysDistinct(db.comments, CommentId)
  }

  function UserEmail(u: User): string { u.email }

  /** What makes two comments the same for the duplicate check of
      `createComment`: its text, its author and its post. */
  function Triple(c: Comment): (string, string, string) { (c.text, c.author, c.post) }
  function InputTriple(data: CommentInput): (string, string, string) { (data.text, data.author, data.post) }

  /** No two users share an email. */
  ghost predicate UniqueEmails(db: Db)
  {
    Seqs.KeysDistinct(db.users, UserEmail)
  }

  /** No two comments share (text, author, post). */
  ghost predicate UniqueTriples(db: Db)
  {
    Seqs.KeysDistinct(db.comments, Triple)
  }
}

=== FILE: index_mutation.dfy ===
/** The `Mutation` resolvers of index.js: `createUser`, `createPost` and
    `createComment`. Each validates its input against the store and then
    appends one row under an id supplied by the caller (the model's stand-in
    for `uuidv4()`), which must not be in use in that collection yet. The
    extended resolvers of src/resolvers/Mutation.js reuse `CreateUser` and
    `CreatePost` unchanged. */
module IndexMutation {
  import opened Wrappers
  import opened Blog
  import Seqs
  import Query
  import Joins

  /** `createUser`: refuses an email some user already has, otherwise
      appends the user. */
  function CreateUser(db: Db, newId: string, data: UserInput): (r: Result<Changed<User>, Error>)
    requires !HasUser(db, newId)
    ensures r.Failure? <==> EmailInUse(db, data.email)
    ensures r.Failure? ==> r.error == EmailTaken(data.email)
    ensures r.Success? ==>
      && r.value.row == User(newId, data.name, data.email, data.age)
      && r.value.db == db.(users := db.users + [r.value.row])
  {
    if Seqs.Find(db.users, UserHasEmail(data.email)).Some? then
      Failure(EmailTaken(data.email))
    else
      var user := User(newId, data.name, data.email, data.age);
      Success(Changed(db.(users := db.users + [user]), user))
  }

  /** `createPost`: refuses an author id no user has, otherwise appends the
      post. */
  function CreatePost(db: Db, newId: string, data: PostInput): (r: Result<Changed<Post>, Error>)
    requires !HasPost(db, newId)
    ensures r.Failure? <==> !HasUser(db, data.author)
    ensures r.Failure? ==> r.error == AuthorNotFound
    ensures r.Success? ==>
      && r.value.row == Post(newId, data.title, data.body, data.author, data.published)
      && r.value.db == db.(posts := db.posts + [r.value.row])
  {
    if Seqs.Find(db.users, UserHasId(data.author)).None? then
      Failure(AuthorNotFound)
    else
      var post := Post(newId, data.title, data.body, data.author, data.published);
      Success(Changed(db.(posts := db.posts + [post]), post))
  }

  /** `createComment`: refuses an unknown author first, then a post that is
      missing or unpublished; otherwise appends the comment. */
  function CreateComment(db: Db, newId: string, data: CommentInput): (r: Result<Changed<Comment>, Error>)
    requires !HasComment(db, newId)
    ensures !HasUser(db, data.author) ==> r == Failure(UserDoesNotExist)
    ensures HasUser(db, data.author) && !HasPublishedPost(db, data.post) ==> r == Failure(PostNotFound)
    ensures r.Success? <==> HasUser(db, data.author) && HasPublishedPost(db, data.post)
    ensures r.Success? ==>
      && r.value.row == Comment(newId, data.text, data.author, data.post)
      && r.value.db == db.(comments := db.comments + [r.value.row])
  {
    var userExists := Seqs.Find(db.users, UserHasId(data.author));
    var postExists := Seqs.Find(db.posts, PublishedPostHasId(data.post));
    if userExists.None? then
      Failure(UserDoesNotExist)
    else if postExists.None? then
      Failure(PostNotFound)
    else
      var comment := Comment(newId, data.text, data.author, data.post);
      Success(Changed(db.(comments := db.comments + [comment]), comment))
  }

  /** Once a user is created, creating another user with the same email
      fails. */
  lemma CreateUserThenSameEmailFails(db: Db, newId: string, data: UserInput, newId2: string, data2: UserInput)
    requires !HasUser(db, newId) && CreateUser(db, newId, data).Success?
    requires data2.email == data.email
    requires !HasUser(CreateUser(db, newId, data).value.db, newId2)
    ensures CreateUser(CreateUser(db, newId, data).value.db, newId2, data2) == Failure(EmailTaken(data.email))
  {
    var db' := CreateUser(db, newId, data).value.db;
    assert db'.users[|db.users|] in db'.users;
  }

  /** `createUser` keeps ids and emails unique and every reference resolved. */
  lemma CreateUserKeepsInvariants(db: Db, newId: string, data: UserInput)
    requires !HasUser(db, newId)
    requires UniqueIds(db) && UniqueEmails(db) && ReferencesResolve(db)
    ensures CreateUser(db, newId, data).Success? ==>
      var db' := CreateUser(db, newId, data).value.db;
      UniqueIds(db') && UniqueEmails(db') && ReferencesResolve(db')
  {
    if CreateUser(db, newId, data).Success? {
      var c := CreateUser(db, newId, data).value;
      assert forall i :: 0 <= i < |db.users| ==> db.users[i] in db.users;
      Seqs.AppendKeepsKeysDistinct(db.users, c.row, UserId);
      Seqs.AppendKeepsKeysDistinct(db.users, c.row, UserEmail);
      assert forall u :: u in db.users ==> u in c.db.users;
    }
  }

  /** `createPost` keeps ids unique and every reference resolved: the new
      post's author is an existing user. */
  lemma CreatePostKeepsInvariants(db: Db, newId: string, data: PostInput)
    requires !HasPost(db, newId)
    requires UniqueIds(db) && ReferencesResolve(db)
    ensures CreatePost(db, newId, data).Success? ==>
      var db' := CreatePost(db, newId, data).value.db;
      UniqueIds(db') && ReferencesResolve(db')
  {
    if CreatePost(db, newId, data).Success? {
      var c := CreatePost(db, newId, data).value;
      assert forall i :: 0 <= i < |db.posts| ==> db.posts[i] in db.posts;
      Seqs.AppendKeepsKeysDistinct(db.posts, c.row, PostId);
      assert forall p :: p in db.posts ==> p in c.db.posts;
    }
  }

  /** `createComment` keeps ids unique and every reference resolved: the new
      comment's author and post both exist. */
  lemma CreateCommentKeepsInvariants(db: Db, newId: string, data: CommentInput)
    requires !HasComment(db, newId)
    requires UniqueIds(db) && ReferencesResolve(db)
    ensures CreateComment(db, newId, data).Success? ==>
      var db' := CreateComment(db, newId, data).value.db;
      UniqueIds(db') && ReferencesResolve(db')
  {
    if CreateComment(db, newId, data).Success? {
      CreateCommentKeepsReferences(db, newId, data);
      CreateCommentKeepsIds(db, newId, data);
    }
  }

  /** The new comment's author and post exist, and nothing else moves. */
  lemma CreateCommentKeepsReferences(db: Db, newId: string, data: CommentInput)
    requires !HasComment(db, newId) && ReferencesResolve(db)
    requires CreateComment(db, newId, data).Success?
    ensures ReferencesResolve(CreateComment(db, newId, data).value.db)
  {
    var c := CreateComment(db, newId, data).value;
    assert c.db == db.(comments := db.comments + [c.row]);
    assert HasUser(db, c.row.author) && HasPost(db, c.row.post);
    forall x | x in c.db.comments
      ensures HasUser(c.db, x.author) && HasPost(c.db, x.post)
    {
      if x != c.row {
        assert x in db.comments;
      }
    }
  }

  lemma CreateCommentKeepsIds(db: Db, newId: string, data: CommentInput)
    requires !HasComment(db, newId) && UniqueIds(db)
    requires CreateComment(db, newId, data).Success?
    ensures UniqueIds(CreateComment(db, newId, data).value.db)
  {
    var c := CreateComment(db, newId, data).value;
    assert c.db == db.(comments := db.comments + [c.row]);
    assert forall i :: 0 <= i < |db.comments| ==> db.comments[i] in db.comments;
    Seqs.AppendKeepsKeysDistinct(db.comments, c.row, CommentId);
  }

  /** After `createPost` the new post is the last of its author's posts and
      every other user's posts are as before. */
  lemma CreatePostExtendsAuthorPosts(db: Db, newId: string, data: PostInput, user: User)
    requires !HasPost(db, newId) && CreatePost(db, newId, data).Success?
    ensures
      var c := CreatePost(db, newId, data).value;
      Joins.UserPosts(c.db, user) ==
        Joins.UserPosts(db, user) + (if user.id == data.author then [c.row] else [])
  {
    var c := CreatePost(db, newId, data).value;
    Seqs.FilterAppend(db.posts, c.row, PostByAuthor(user.id));
  }

  /** After `createPost` the `posts` query for the new id returns exactly the
      new post. */
  lemma CreatePostThenQueryById(db: Db, newId: string, data: PostInput)
    requires !HasPost(db, newId) && newId != ""
    requires CreatePost(db, newId, data).Success?
    ensures
      var c := CreatePost(db, newId, data).value;
      Query.Posts(c.db, Some(newId)) == [c.row]
  {
    var c := CreatePost(db, newId, data).value;
    Seqs.FilterAppend(db.posts, c.row, PostHasId(newId));
    Seqs.FilterKeepsNone(db.posts, PostHasId(newId));
  }

  /** After `createComment` the new comment is the last of the post's
      comments and of its author's comments. */
  lemma CreateCommentExtendsJoins(db: Db, newId: string, data: CommentInput, post: Post, user: User)
    requires !HasComment(db, newId) && CreateComment(db, newId, data).Success?
    ensures
      var c := CreateComment(db, newId, data).value;
      && Joins.PostComments(c.db, post) ==
           Joins.PostComments(db, post) + (if post.id == data.post then [c.row] else [])
      && Joins.UserComments(c.db, user) ==
           Joins.UserComments(db, user) + (if user.id == data.author then [c.row] else [])
  {
    var c := CreateComment(db, newId, data).value;
    assert c.db.comments == db.comments + [c.row];
    Seqs.FilterAppend(db.comments, c.row, CommentOnPost(post.id));
    Seqs.FilterAppend(db.comments, c.row, CommentByAuthor(user.id));
  }
}

=== FILE: joins.dfy ===
/** The relational resolvers of index.js: `Post.author`, `Post.comments`,
    `User.posts`, `User.comments`, `Comment.author` and `Comment.post`, each
    a linear scan from a parent row over one collection of the store. */
module Joins {
  import opened Wrappers
  import opened Blog
  import Seqs

  /** `Post.author`: the first user whose id is the post's author. */
  function PostAuthor(db: Db, post: Post): (r: Option<User>)
    ensures r.None? <==> !HasUser(db, post.author)
    ensures r.Some? ==> exists i :: Seqs.IsFirstAt(db.users, UserHasId(post.author), i) && db.users[i] == r.value
  {
    Seqs.Find(db.users, UserHasId(post.author))
  }

  /** `Post.comments`: the comments on the post, in store order. */
  function PostComments(db: Db, post: Post): (r: seq<Comment>)
    ensures Seqs.Selects(r, db.comments, CommentOnPost(post.id))
    ensures forall c :: c in r <==> c in db.comments && c.post == post.id
  {
    Seqs.Filter(db.comments, CommentOnPost(post.id))
  }

  /** `User.posts`: the posts the user wrote, in store order. */
  function UserPosts(db: Db, user: User): (r: seq<Post>)
    ensures Seqs.Selects(r, db.posts, PostByAuthor(user.id))
    ensures forall p :: p in r <==> p in db.posts && p.author == user.id
  {
    Seqs.Filter(db.posts, PostByAuthor(user.id))
  }

  /** `User.comments`: the comments the user wrote, in store order. */
  function UserComments(db: Db, user: User): (r: seq<Comment>)
    ensures Seqs.Selects(r, db.comments, CommentByAuthor(user.id))
    ensures forall c :: c in r <==> c in db.comments && c.author == user.id
  {
    Seqs.Filter(db.comments, CommentByAuthor(user.id))
  }

  /** `Comment.author`: the first user whose id is the comment's author. */
  function CommentAuthor(db: Db, comment: Comment): (r: Option<User>)
    ensures r.None? <==> !HasUser(db, comment.author)
    ensures r.Some? ==> exists i :: Seqs.IsFirstAt(db.users, UserHasId(comment.author), i) && db.users[i] == r.value
  {
    Seqs.Find(db.users, UserHasId(comment.author))
  }

  /** `Comment.post`: the first post whose id is the comment's post. */
  function CommentPost(db: Db, comment: Comment): (r: Option<Post>)
    ensures r.None? <==> !HasPost(db, comment.post)
    ensures r.Some? ==> exists i :: Seqs.IsFirstAt(db.posts, PostHasId(comment.post), i) && db.posts[i] == r.value
  {
    Seqs.Find(db.posts, PostHasId(comment.post))
  }

  /** When every foreign key resolves, none of the non-null fields
      `Post.author`, `Comment.author` and `Comment.post` comes back empty. */
  lemma JoinsResolve(db: Db)
    requires ReferencesResolve(db)
    ensures forall p :: p in db.posts ==> PostAuthor(db, p).Some?
    ensures forall c :: c in db.comments ==> CommentAuthor(db, c).Some? && CommentPost(db, c).Some?
  {
  }

  /** With unique user ids, `User.posts` and `Post.author` are inverse: a
      post is among a user's posts exactly when the user is its author. */
  lemma UserPostsInvertsPostAuthor(db: Db, user: User, post: Post)
    requires UniqueIds(db) && user in db.users && post in db.posts
    ensures post in UserPosts(db, user) <==> PostAuthor(db, post) == Some(user)
  {
    if post.author == user.id {
      var k :| 0 <= k < |db.users| && db.users[k] == user;
      Seqs.FindUnique(db.users, UserHasId(post.author), k);
    }
  }

  /** With unique user ids, `User.comments` and `Comment.author` are inverse. */
  lemma UserCommentsInvertsCommentAuthor(db: Db, user: User, comment: Comment)
    requires UniqueIds(db) && user in db.users && comment in db.comments
    ensures comment in UserComments(db, user) <==> CommentAuthor(db, comment) == Some(user)
  {
    if comment.author == user.id {
      var k :| 0 <= k < |db.users| && db.users[k] == user;
      Seqs.FindUnique(db.users, UserHasId(comment.author), k);
    }
  }

  /** With unique post ids, `Post.comments` and `Comment.post` are inverse. */
  lemma PostCommentsInvertsCommentPost(db: Db, post: Post, comment: Comment)
    requires UniqueIds(db) && post in db.posts && comment in db.comments
    ensures comment in PostComments(db, post) <==> CommentPost(db, comment) == Some(post)
  {
    if comment.post == post.id {
      var k :| 0 <= k < |db.posts| && db.posts[k] == post;
      Seqs.FindUnique(db.posts, PostHasId(comment.post), k);
    }
  }
}

=== FILE: mutation.dfy ===
/** The extended `Mutation` resolvers of src/resolvers/Mutation.js:
    `deleteUser`, `updateUser`, `deletePost`, `createComment` with its
    duplicate check, and `deleteComment`. Its `createUser` and `createPost`
    are those of `IndexMutation`. Where that file reads or splices the
    undeclared global `users`, the model uses the store's users. */
module Mutation {
  import opened Wrappers
  import opened Blog
  import Seqs
  import Query
  import Joins
  import IndexMutation

  /** `deleteUser` as written: splices out the first user with the id,
      drops the posts that user wrote and the comments that user wrote.
      The callback that filters the posts also filters the comments by post
      but discards that result, so comments by other users on the dropped
      posts stay behind. */
  function DeleteUser(db: Db, id: string): (r: Result<Changed<User>, Error>)
    ensures r.Failure? <==> !HasUser(db, id)
    ensures r.Failure? ==> r.error == NoUserToDelete
    ensures r.Success? ==>
      && r.value.row.id == id
      && (exists i :: Seqs.IsFirstAt(db.users, UserHasId(id), i) && db.users[i] == r.value.row
                      && r.value.db.users == Seqs.RemoveAt(db.users, i))
      && Seqs.Selects(r.value.db.posts, db.posts, Seqs.Not(PostByAuthor(id)))
      && Seqs.Selects(r.value.db.comments, db.comments, Seqs.Not(CommentByAuthor(id)))
    ensures r.Success? ==> forall c :: c in r.value.db.comments <==> c in db.comments && c.author != id
  {
    var i := Seqs.FindIndex(db.users, UserHasId(id));
    if i == -1 then
      assert forall u :: u in db.users ==> !UserHasId(id)(u);
      Failure(NoUserToDelete)
    else
      assert db.users[i] in db.users && db.users[i].id == id;
      var posts := Seqs.Filter(db.posts, Seqs.Not(PostByAuthor(id)));
      var comments := Seqs.Filter(db.comments, Seqs.Not(CommentByAuthor(id)));
      NotByAuthor(id);
      Success(Changed(Db(Seqs.RemoveAt(db.users, i), posts, comments), db.users[i]))
  }

  /** The callback of the comment filter in `deleteUser` keeps exactly the
      comments by other users. */
  lemma NotByAuthor(id: string)
    ensures forall c :: Seqs.Not(CommentByAuthor(id))(c) <==> c.author != id
  {
  }

  /** The comments `deleteUser` is evidently meant to drop: those the user
      wrote and those on posts the user wrote. */
  function OrphanedBy(db: Db, id: string): Comment -> bool
  {
    (c: Comment) => c.author == id || exists p :: p in db.posts && p.author == id && p.id == c.post
  }

  /** `deleteUser` with the comment cascade in effect: as `DeleteUser`, but
      the comments on the dropped posts go too. */
  function DeleteUserCascading(db: Db, id: string): (r: Result<Changed<User>, Error>)
    ensures r.Failure? <==> !HasUser(db, id)
    ensures r.Failure? ==> r.error == NoUserToDelete
    ensures r.Success? ==>
      && r.value.row.id == id
      && (exists i :: Seqs.IsFirstAt(db.users, UserHasId(id), i) && db.users[i] == r.value.row
                      && r.value.db.users == Seqs.RemoveAt(db.users, i))
      && Seqs.Selects(r.value.db.posts, db.posts, Seqs.Not(PostByAuthor(id)))
      && Seqs.Selects(r.value.db.comments, db.comments, Seqs.Not(OrphanedBy(db, id)))
  {
    var i := Seqs.FindIndex(db.users, UserHasId(id));
    if i == -1 then
      assert forall u :: u in db.users ==> !UserHasId(id)(u);
      Failure(NoUserToDelete)
    else
      assert db.users[i] in db.users && db.users[i].id == id;
      var posts := Seqs.Filter(db.posts, Seqs.Not(PostByAuthor(id)));
      var comments := Seqs.Filter(db.comments, Seqs.Not(OrphanedBy(db, id)));
      Success(Changed(Db(Seqs.RemoveAt(db.users, i), posts, comments), db.users[i]))
  }

  /** The user `updateUser` leaves behind: a string `name` or `email`
      replaces the old one, and `age` is replaced unless it is undefined,
      so an explicit `null` clears it. */
  function Patched(u: User, patch: UserPatch): User
  {
    var email := if patch.email.Some? then patch.email.value else u.email;
    var name := if patch.name.Some? then patch.name.value else u.name;
    var age := match patch.age
      case AgeUndefined => u.age
      case AgeNull => None
      case AgeValue(n) => Some(n);
    User(u.id, name, email, age)
  }

  /** `updateUser`: finds the first user with the id, refuses an email that
      any user (the target included) already has, then changes only the
      supplied fields of that one user. */
  function UpdateUser(db: Db, id: string, patch: UserPatch): (r: Result<Changed<User>, Error>)
    ensures !HasUser(db, id) ==> r == Failure(NoUserToUpdate)
    ensures HasUser(db, id) && patch.email.Some? && EmailInUse(db, patch.email.value) ==>
      r == Failure(EmailAlreadyTaken)
    ensures r.Success? <==> HasUser(db, id) && !(patch.email.Some? && EmailInUse(db, patch.email.value))
    ensures r.Success? ==>
      exists i :: Seqs.IsFirstAt(db.users, UserHasId(id), i)
        && r.value.db == db.(users := db.users[i := r.value.row])
        && r.value.row.id == id
        && r.value.row.name == (if patch.name.Some? then patch.name.value else db.users[i].name)
        && r.value.row.email == (if patch.email.Some? then patch.email.value else db.users[i].email)
        && (patch.age.AgeUndefined? ==> r.value.row.age == db.users[i].age)
        && (patch.age.AgeNull? ==> r.value.row.age == None)
        && (patch.age.AgeValue? ==> r.value.row.age == Some(patch.age.n))
  {
    var i := Seqs.FindIndex(db.users, UserHasId(id));
    if i == -1 then
      Failure(NoUserToUpdate)
    else if patch.email.Some? && Seqs.Find(db.users, UserHasEmail(patch.email.value)).Some? then
      Failure(EmailAlreadyTaken)
    else
      var user := Patched(db.users[i], patch);
      Success(Changed(db.(users := db.users[i := user]), user))
  }

  /** `deletePost`: splices out the first post with the id and drops every
      comment on that id. */
  function DeletePost(db: Db, id: string): (r: Result<Changed<Post>, Error>)
    ensures r.Failure? <==> !HasPost(db, id)
    ensures r.Failure? ==> r.error == PostDoesNotExist
    ensures r.Success? ==>
      && r.value.row.id == id
      && (exists i :: Seqs.IsFirstAt(db.posts, PostHasId(id), i) && db.posts[i] == r.value.row
                      && r.value.db.posts == Seqs.RemoveAt(db.posts, i))
      && r.value.db.users == db.users
      && Seqs.Selects(r.value.db.comments, db.comments, Seqs.Not(CommentOnPost(id)))
    ensures r.Success? ==> forall c :: c in r.value.db.comments <==> c in db.comments && c.post != id
  {
    var i := Seqs.FindIndex(db.posts, PostHasId(id));
    if i == -1 then
      assert forall p :: p in db.posts ==> !PostHasId(id)(p);
      Failure(PostDoesNotExist)
    else
      assert db.posts[i] in db.posts && db.posts[i].id == id;
      var comments := Seqs.Filter(db.comments, Seqs.Not(CommentOnPost(id)));
      NotOnPost(id);
      Success(Changed(db.(posts := Seqs.RemoveAt(db.posts, i), comments := comments), db.posts[i]))
  }

  /** The callback of the comment filter in `deletePost` keeps exactly the
      comments on other posts. */
  lemma NotOnPost(id: string)
    ensures forall c :: Seqs.Not(CommentOnPost(id))(c) <==> c.post != id
  {
  }

  /** `createComment` with the duplicate check: the errors of
      `IndexMutation.CreateComment` come first, then a comment with the
      same text, author and post is refused; otherwise the comment is
      appended. */
  function CreateComment(db: Db, newId: string, data: CommentInput): (r: Result<Changed<Comment>, Error>)
    requires !HasComment(db, newId)
    ensures !HasUser(db, data.author) ==> r == Failure(UserDoesNotExist)
    ensures HasUser(db, data.author) && !HasPublishedPost(db, data.post) ==> r == Failure(PostNotFound)
    ensures HasUser(db, data.author) && HasPublishedPost(db, data.post) && HasTriple(db, data) ==>
      r == Failure(AlreadyCommented)
    ensures r.Success? <==>
      HasUser(db, data.author) && HasPublishedPost(db, data.post) && !HasTriple(db, data)
    ensures r.Success? ==>
      && r == IndexMutation.CreateComment(db, newId, data)
      && r.value.row == Comment(newId, data.text, data.author, data.post)
      && r.value.db == db.(comments := db.comments + [r.value.row])
  {
    var commentExists := Seqs.Find(db.comments, SameTriple(data));
    var created := IndexMutation.CreateComment(db, newId, data);
    if created.Failure? then created
    else if commentExists.Some? then Failure(AlreadyCommented)
    else created
  }

  /** `deleteComment`: splices out the first comment with the id. */
  function DeleteComment(db: Db, id: string): (r: Result<Changed<Comment>, Error>)
    ensures r.Failure? <==> !HasComment(db, id)
    ensures r.Failure? ==> r.error == CommentNotFound
    ensures r.Success? ==>
      && r.value.row.id == id
      && (exists i :: Seqs.IsFirstAt(db.comments, CommentHasId(id), i) && db.comments[i] == r.value.row
                      && r.value.db.comments == Seqs.RemoveAt(db.comments, i))
      && r.value.db.users == db.users
      && r.value.db.posts == db.posts
  {
    var i := Seqs.FindIndex(db.comments, CommentHasId(id));
    if i == -1 then
      assert forall c :: c in db.comments ==> !CommentHasId(id)(c);
      Failure(CommentNotFound)
    else
      assert db.comments[i] in db.comments && db.comments[i].id == id;
      Success(Changed(db.(comments := Seqs.RemoveAt(db.comments, i)), db.comments[i]))
  }

  // deleteUser

  /** Users other than the deleted one stay. */
  lemma DeleteUserKeepsOtherUsers(db: Db, id: string)
    requires HasUser(db, id)
    ensures forall u :: u in db.users && u.id != id ==> u in DeleteUser(db, id).value.db.users
    ensures forall u :: u in DeleteUser(db, id).value.db.users ==> u in db.users
  {
    var i := Seqs.FindIndex(db.users, UserHasId(id));
    Seqs.RemoveAtKeepsOthers(db.users, i);
  }

  /** Every post and every comment has an existing author: the half of
      `ReferencesResolve` that `deleteUser` as written keeps. */
  predicate AuthorsResolve(db: Db)
  {
    && (forall p :: p in db.posts ==> HasUser(db, p.author))
    && (forall c :: c in db.comments ==> HasUser(db, c.author))
  }

  /** `deleteUser` as written keeps the author references resolved: every
      remaining post and comment was written by a remaining user. This
      holds also on stores where an earlier delete left a comment on a
      missing post. */
  lemma DeleteUserKeepsAuthorsResolved(db: Db, id: string)
    requires AuthorsResolve(db) && HasUser(db, id)
    ensures AuthorsResolve(DeleteUser(db, id).value.db)
  {
    DeleteUserKeepsOtherUsers(db, id);
  }

  /** `deleteUser` as written keeps ids, emails and comment triples unique:
      it only removes rows. */
  lemma DeleteUserKeepsUniqueness(db: Db, id: string)
    requires UniqueIds(db) && UniqueEmails(db) && UniqueTriples(db)
    ensures DeleteUser(db, id).Success? ==>
      var db' := DeleteUser(db, id).value.db;
      UniqueIds(db') && UniqueEmails(db') && UniqueTriples(db')
  {
    if DeleteUser(db, id).Success? {
      var db' := DeleteUser(db, id).value.db;
      var i := Seqs.FindIndex(db.users, UserHasId(id));
      Seqs.RemoveAtIsSubsequence(db.users, i);
      Seqs.SubsequenceKeepsKeysDistinct(db'.users, db.users, UserId);
      Seqs.SubsequenceKeepsKeysDistinct(db'.users, db.users, UserEmail);
      Seqs.SubsequenceKeepsKeysDistinct(db'.posts, db.posts, PostId);
      Seqs.SubsequenceKeepsKeysDistinct(db'.comments, db.comments, CommentId);
      Seqs.SubsequenceKeepsKeysDistinct(db'.comments, db.comments, Triple);
    }
  }

  /** `deleteUser` as written can leave a comment whose post is gone: one
      user comments on another user's post, and the post's author is
      deleted. */
  lemma DeleteUserCanOrphanComments()
    ensures
      var alice := User("1", "Alice", "alice@example.com", None);
      var bob := User("2", "Bob", "bob@example.com", None);
      var db := Db([alice, bob], [Post("10", "T", "B", "1", true)], [Comment("20", "Hi", "2", "10")]);
      && ReferencesResolve(db)
      && DeleteUser(db, "1").Success?
      && !ReferencesResolve(DeleteUser(db, "1").value.db)
  {
    var alice := User("1", "Alice", "alice@example.com", None);
    var bob := User("2", "Bob", "bob@example.com", None);
    var post := Post("10", "T", "B", "1", true);
    var comment := Comment("20", "Hi", "2", "10");
    var db := Db([alice, bob], [post], [comment]);
    assert alice in db.users && bob in db.users && post in db.posts;
    assert ReferencesResolve(db);
    var db' := DeleteUser(db, "1").value.db;
    assert post !in db'.posts;
    assert db'.posts == [];
    assert comment in db'.comments;
  }

  /** The cascading `deleteUser` keeps every reference resolved and every id
      unique. */
  lemma DeleteUserCascadingKeepsInvariants(db: Db, id: string)
    requires ReferencesResolve(db) && UniqueIds(db)
    ensures DeleteUserCascading(db, id).Success? ==>
      var db' := DeleteUserCascading(db, id).value.db;
      ReferencesResolve(db') && UniqueIds(db')
  {
    if DeleteUserCascading(db, id).Success? {
      var db' := DeleteUserCascading(db, id).value.db;
      var i := Seqs.FindIndex(db.users, UserHasId(id));
      Seqs.RemoveAtKeepsOthers(db.users, i);
      assert forall u :: u in db.users && u.id != id ==> u in db'.users;
      forall c | c in db'.comments
        ensures HasUser(db', c.author) && HasPost(db', c.post)
      {
        assert c in db.comments && c.author != id;
        var p :| p in db.posts && p.id == c.post;
        assert p.author != id;
        assert p in db'.posts;
      }
      Seqs.RemoveAtIsSubsequence(db.users, i);
      Seqs.SubsequenceKeepsKeysDistinct(db'.users, db.users, UserId);
      Seqs.SubsequenceKeepsKeysDistinct(db'.posts, db.posts, PostId);
      Seqs.SubsequenceKeepsKeysDistinct(db'.comments, db.comments, CommentId);
    }
  }

  /** With unique ids, nothing of the deleted user survives: no user with
      the id, no post or comment by it. */
  lemma DeleteUserLeavesNoTrace(db: Db, id: string)
    requires UniqueIds(db) && HasUser(db, id)
    ensures
      var c := DeleteUser(db, id).value;
      && !HasUser(c.db, id)
      && Joins.UserPosts(c.db, c.row) == []
      && Joins.UserComments(c.db, c.row) == []
  {
    var c := DeleteUser(db, id).value;
    var i := Seqs.FindIndex(db.users, UserHasId(id));
    forall k | 0 <= k < |c.db.users|
      ensures c.db.users[k].id != id
    {
      if k < i {
        assert UserId(db.users[k]) != UserId(db.users[i]);
      } else {
        assert UserId(db.users[i]) != UserId(db.users[k + 1]);
      }
    }
    Seqs.FilterKeepsNone(c.db.posts, PostByAuthor(c.row.id));
    Seqs.FilterKeepsNone(c.db.comments, CommentByAuthor(c.row.id));
  }

  // updateUser

  /** `updateUser` changes no id: user `k` has the same id before and after. */
  lemma UpdateUserKeepsIdsInPlace(db: Db, id: string, patch: UserPatch)
    requires UpdateUser(db, id, patch).Success?
    ensures
      var db' := UpdateUser(db, id, patch).value.db;
      && |db'.users| == |db.users|
      && (forall k :: 0 <= k < |db.users| ==> db'.users[k].id == db.users[k].id)
      && db'.posts == db.posts && db'.comments == db.comments
  {
  }

  /** Replacing users without changing their ids keeps the set of user ids. */
  lemma SameIdsSameUsers(db: Db, db': Db)
    requires |db'.users| == |db.users|
    requires forall k :: 0 <= k < |db.users| ==> db'.users[k].id == db.users[k].id
    ensures forall x :: HasUser(db', x) <==> HasUser(db, x)
    ensures Seqs.KeysDistinct(db.users, UserId) ==> Seqs.KeysDistinct(db'.users, UserId)
  {
    forall x
      ensures HasUser(db', x) <==> HasUser(db, x)
    {
      if HasUser(db, x) {
        var u :| u in db.users && u.id == x;
        var k :| 0 <= k < |db.users| && db.users[k] == u;
        assert db'.users[k] in db'.users;
      }
      if HasUser(db', x) {
        var u :| u in db'.users && u.id == x;
        var k :| 0 <= k < |db'.users| && db'.users[k] == u;
        assert db.users[k] in db.users;
      }
    }
    if Seqs.KeysDistinct(db.users, UserId) {
      forall a, b | 0 <= a < b < |db'.users|
        ensures UserId(db'.users[a]) != UserId(db'.users[b])
      {
        assert UserId(db.users[a]) != UserId(db.users[b]);
      }
    }
  }

  /** `updateUser` keeps emails unique: a supplied email is held by no one. */
  lemma UpdateUserKeepsEmailsUnique(db: Db, id: string, patch: UserPatch)
    requires UniqueEmails(db) && UpdateUser(db, id, patch).Success?
    ensures UniqueEmails(UpdateUser(db, id, patch).value.db)
  {
    var c := UpdateUser(db, id, patch).value;
    var i := Seqs.FindIndex(db.users, UserHasId(id));
    assert c.db.users == db.users[i := c.row];
    forall a, b | 0 <= a < b < |c.db.users|
      ensures UserEmail(c.db.users[a]) != UserEmail(c.db.users[b])
    {
      if a != i && b != i {
        assert UserEmail(db.users[a]) != UserEmail(db.users[b]);
      } else if patch.email.Some? {
        assert db.users[a] in db.users && db.users[b] in db.users;
      } else {
        assert UserEmail(db.users[a]) != UserEmail(db.users[b]);
      }
    }
  }

  /** `updateUser` keeps ids and emails unique and every reference resolved. */
  lemma UpdateUserKeepsInvariants(db: Db, id: string, patch: UserPatch)
    requires UniqueIds(db) && UniqueEmails(db) && ReferencesResolve(db)
    ensures UpdateUser(db, id, patch).Success? ==>
      var db' := UpdateUser(db, id, patch).value.db;
      UniqueIds(db') && UniqueEmails(db') && ReferencesResolve(db')
  {
    if UpdateUser(db, id, patch).Success? {
      var db' := UpdateUser(db, id, patch).value.db;
      UpdateUserKeepsIdsInPlace(db, id, patch);
      SameIdsSameUsers(db, db');
      UpdateUserKeepsEmailsUnique(db, id, patch);
    }
  }

  /** An update that supplies no field returns the user and changes nothing. */
  lemma UpdateUserEmptyPatchChangesNothing(db: Db, id: string)
    requires HasUser(db, id)
    ensures
      var r := UpdateUser(db, id, UserPatch(None, None, AgeUndefined));
      r.Success? && r.value.db == db && r.value.row in db.users && r.value.row.id == id
  {
    var i := Seqs.FindIndex(db.users, UserHasId(id));
    var r := UpdateUser(db, id, UserPatch(None, None, AgeUndefined));
    assert r.value.row == db.users[i];
    assert db.users[i := db.users[i]] == db.users;
  }

  /** Setting a user's email to the email it already has fails: the check
      does not exempt the target itself. */
  lemma UpdateUserOwnEmailFails(db: Db, user: User, patch: UserPatch)
    requires user in db.users && patch.email == Some(user.email)
    ensures UpdateUser(db, user.id, patch) == Failure(EmailAlreadyTaken)
  {
  }

  // deletePost

  /** `deletePost` keeps every reference resolved and every id unique. */
  lemma DeletePostKeepsInvariants(db: Db, id: string)
    requires ReferencesResolve(db) && UniqueIds(db)
    ensures DeletePost(db, id).Success? ==>
      var db' := DeletePost(db, id).value.db;
      ReferencesResolve(db') && UniqueIds(db')
  {
    if DeletePost(db, id).Success? {
      DeletePostKeepsReferences(db, id);
      DeletePostKeepsIds(db, id);
    }
  }

  /** A post that survives `deletePost` is every post with another id; so
      every remaining comment, being on another id, keeps its post. */
  lemma DeletePostKeepsReferences(db: Db, id: string)
    requires ReferencesResolve(db) && HasPost(db, id)
    ensures ReferencesResolve(DeletePost(db, id).value.db)
  {
    var db' := DeletePost(db, id).value.db;
    var i := Seqs.FindIndex(db.posts, PostHasId(id));
    Seqs.RemoveAtKeepsOthers(db.posts, i);
    assert db'.users == db.users;
    forall p | p in db'.posts
      ensures HasUser(db', p.author)
    {
      assert p in db.posts;
    }
    forall c | c in db'.comments
      ensures HasUser(db', c.author) && HasPost(db', c.post)
    {
      assert c in db.comments && c.post != id;
      var p :| p in db.posts && p.id == c.post;
      var k :| 0 <= k < |db.posts| && db.posts[k] == p;
      assert k != i;
      assert p in db'.posts;
    }
  }

  lemma DeletePostKeepsIds(db: Db, id: string)
    requires UniqueIds(db) && HasPost(db, id)
    ensures UniqueIds(DeletePost(db, id).value.db)
  {
    var db' := DeletePost(db, id).value.db;
    var i := Seqs.FindIndex(db.posts, PostHasId(id));
    Seqs.RemoveAtIsSubsequence(db.posts, i);
    Seqs.SubsequenceKeepsKeysDistinct(db'.posts, db.posts, PostId);
    Seqs.SubsequenceKeepsKeysDistinct(db'.comments, db.comments, CommentId);
  }

  /** With unique ids, after `deletePost` the id query finds nothing and no
      comment on the post is left. */
  lemma DeletePostLeavesNoTrace(db: Db, id: string)
    requires UniqueIds(db) && id != "" && HasPost(db, id)
    ensures
      var c := DeletePost(db, id).value;
      Query.Posts(c.db, Some(id)) == [] && Joins.PostComments(c.db, c.row) == []
  {
    var c := DeletePost(db, id).value;
    var i := Seqs.FindIndex(db.posts, PostHasId(id));
    forall k | 0 <= k < |c.db.posts|
      ensures c.db.posts[k].id != id
    {
      if k < i {
        assert PostId(db.posts[k]) != PostId(db.posts[i]);
      } else {
        assert PostId(db.posts[i]) != PostId(db.posts[k + 1]);
      }
    }
    Seqs.FilterKeepsNone(c.db.posts, PostHasId(id));
    Seqs.FilterKeepsNone(c.db.comments, CommentOnPost(c.row.id));
  }

  // createComment

  /** The duplicate check keeps (text, author, post) triples unique, and
      the other invariants hold as for the plain `createComment`. */
  lemma CreateCommentKeepsTriplesUnique(db: Db, newId: string, data: CommentInput)
    requires !HasComment(db, newId) && UniqueTriples(db)
    ensures CreateComment(db, newId, data).Success? ==>
      var db' := CreateComment(db, newId, data).value.db;
      && UniqueTriples(db')
      && (UniqueIds(db) && ReferencesResolve(db) ==> UniqueIds(db') && ReferencesResolve(db'))
  {
    if CreateComment(db, newId, data).Success? {
      var c := CreateComment(db, newId, data).value;
      assert forall i :: 0 <= i < |db.comments| ==> db.comments[i] in db.comments;
      Seqs.AppendKeepsKeysDistinct(db.comments, c.row, Triple);
      if UniqueIds(db) && ReferencesResolve(db) {
        IndexMutation.CreateCommentKeepsInvariants(db, newId, data);
      }
    }
  }

  /** Posting the same comment again, under any new id, is refused. */
  lemma CreateCommentTwiceFails(db: Db, newId: string, data: CommentInput, newId2: string)
    requires !HasComment(db, newId) && CreateComment(db, newId, data).Success?
    requires !HasComment(CreateComment(db, newId, data).value.db, newId2)
    ensures CreateComment(CreateComment(db, newId, data).value.db, newId2, data) == Failure(AlreadyCommented)
  {
    var c := CreateComment(db, newId, data).value;
    assert c.db.comments[|db.comments|] == c.row;
    assert HasTriple(c.db, data);
  }

  // deleteComment

  /** `deleteComment` keeps the other comments in their relative order and
      removes exactly one occurrence of the deleted one. */
  lemma DeleteCommentKeepsOrder(db: Db, id: string)
    requires HasComment(db, id)
    ensures
      var c := DeleteComment(db, id).value;
      && Seqs.IsSubsequence(c.db.comments, db.comments)
      && multiset(c.db.comments) + multiset{c.row} == multiset(db.comments)
  {
    var i := Seqs.FindIndex(db.comments, CommentHasId(id));
    Seqs.RemoveAtIsSubsequence(db.comments, i);
    Seqs.RemoveAtMultiset(db.comments, i);
  }

  /** `deleteComment` keeps every reference resolved and every id unique. */
  lemma DeleteCommentKeepsInvariants(db: Db, id: string)
    requires ReferencesResolve(db) && UniqueIds(db)
    ensures DeleteComment(db, id).Success? ==>
      var db' := DeleteComment(db, id).value.db;
      ReferencesResolve(db') && UniqueIds(db')
  {
    if DeleteComment(db, id).Success? {
      var i := Seqs.FindIndex(db.comments, CommentHasId(id));
      Seqs.RemoveAtKeepsOthers(db.comments, i);
      Seqs.RemoveAtIsSubsequence(db.comments, i);
      Seqs.SubsequenceKeepsKeysDistinct(DeleteComment(db, id).value.db.comments, db.comments, CommentId);
    }
  }

  // Creation undone by deletion

  /** Deleting a comment right after creating it restores the store. */
  lemma CreateCommentThenDelete(db: Db, newId: string, data: CommentInput)
    requires !HasComment(db, newId) && CreateComment(db, newId, data).Success?
    ensures
      var c := CreateComment(db, newId, data).value;
      DeleteComment(c.db, newId) == Success(Changed(db, c.row))
  {
    var c := CreateComment(db, newId, data).value;
    var n := |db.comments|;
    assert c.db.comments[n] == c.row;
    Seqs.FindUnique(c.db.comments, CommentHasId(newId), n);
    assert Seqs.RemoveAt(c.db.comments, n) == db.comments;
  }

  /** Deleting a post right after creating it restores the store, as long
      as no comment is already on the new id. */
  lemma CreatePostThenDelete(db: Db, newId: string, data: PostInput)
    requires forall c :: c in db.comments ==> c.post != newId
    requires !HasPost(db, newId) && IndexMutation.CreatePost(db, newId, data).Success?
    ensures
      var c := IndexMutation.CreatePost(db, newId, data).value;
      DeletePost(c.db, newId) == Success(Changed(db, c.row))
  {
    var c := IndexMutation.CreatePost(db, newId, data).value;
    var n := |db.posts|;
    assert c.db.posts[n] == c.row;
    Seqs.FindUnique(c.db.posts, PostHasId(newId), n);
    assert Seqs.RemoveAt(c.db.posts, n) == db.posts;
    Seqs.FilterKeepsAll(db.comments, Seqs.Not(CommentOnPost(newId)));
  }

  /** Deleting a user right after creating it restores the store, as long
      as no post or comment is already by the new id. */
  lemma CreateUserThenDelete(db: Db, newId: string, data: UserInput)
    requires forall p :: p in db.posts ==> p.author != newId
    requires forall c :: c in db.comments ==> c.author != newId
    requires !HasUser(db, newId) && IndexMutation.CreateUser(db, newId, data).Success?
    ensures
      var c := IndexMutation.CreateUser(db, newId, data).value;
      DeleteUser(c.db, newId) == Success(Changed(db, c.row))
  {
    var c := IndexMutation.CreateUser(db, newId, data).value;
    var n := |db.users|;
    assert c.db.users[n] == c.row;
    Seqs.FindUnique(c.db.users, UserHasId(newId), n);
    assert Seqs.RemoveAt(c.db.users, n) == db.users;
    Seqs.FilterKeepsAll(db.posts, Seqs.Not(PostByAuthor(newId)));
    Seqs.FilterKeepsAll(db.comments, Seqs.Not(CommentByAuthor(newId)));
  }
}

=== FILE: query.dfy ===
/** The `Query` resolvers `users`, `posts` and `comments` of index.js. */
module Query {
  import opened Wrappers
  import opened Blog
  import Seqs
  import Text

  /** `!args.query`: an absent, `null` or empty argument selects everything. */
  predicate Blank(query: Option<string>)
  {
    query.None? || query.value == ""
  }

  /** The `users` callback: the lower-cased name includes the lower-cased query. */
  function NameMatches(query: string): User -> bool
  {
    (u: User) => Text.Includes(Text.Lower(u.name), Text.Lower(query))
  }

  /** `users(query)`: all users, or those whose name contains the query
      without regard to ASCII letter case. */
  function Users(db: Db, query: Option<string>): (r: seq<User>)
    ensures Blank(query) ==> r == db.users
    ensures !Blank(query) ==> Seqs.Selects(r, db.users, NameMatches(query.value))
    ensures forall u :: u in r <==>
      u in db.users && (Blank(query) || Text.Includes(Text.Lower(u.name), Text.Lower(query.value)))
  {
    if Blank(query) then db.users
    else Seqs.Filter(db.users, NameMatches(query.value))
  }

  /** `posts(query)`: all posts, or those whose id is exactly the query. */
  function Posts(db: Db, query: Option<string>): (r: seq<Post>)
    ensures Blank(query) ==> r == db.posts
    ensures !Blank(query) ==> Seqs.Selects(r, db.posts, PostHasId(query.value))
    ensures forall p :: p in r <==> p in db.posts && (Blank(query) || p.id == query.value)
  {
    if Blank(query) then db.posts
    else Seqs.Filter(db.posts, PostHasId(query.value))
  }

  /** `comments(pk)`: all comments, or those whose id is exactly `pk`. */
  function Comments(db: Db, pk: Option<string>): (r: seq<Comment>)
    ensures Blank(pk) ==> r == db.comments
    ensures !Blank(pk) ==> Seqs.Selects(r, db.comments, CommentHasId(pk.value))
    ensures forall c :: c in r <==> c in db.comments && (Blank(pk) || c.id == pk.value)
  {
    if Blank(pk) then db.comments
    else Seqs.Filter(db.comments, CommentHasId(pk.value))
  }

  /** The name search ignores the case of the query: searching for a query
      and for its lower-cased form give the same users. */
  lemma UsersIgnoresQueryCase(db: Db, query: string)
    ensures Users(db, Some(query)) == Users(db, Some(Text.Lower(query)))
  {
    Text.LowerIdempotent(query);
    if query != "" {
      Seqs.FilterExt(db.users, NameMatches(query), NameMatches(Text.Lower(query)));
    }
  }

  /** A user is always found by its own name. */
  lemma UsersFindsOwnName(db: Db, u: User)
    requires u in db.users
    ensures u in Users(db, Some(u.name))
  {
    Text.IncludesEmptyAndSelf(Text.Lower(u.name));
  }

  /** With unique post ids a non-empty id query returns the one post with
      that id, or nothing. */
  lemma PostsById(db: Db, id: string)
    requires UniqueIds(db) && id != ""
    ensures |Posts(db, Some(id))| <= 1
    ensures HasPost(db, id) <==> |Posts(db, Some(id))| == 1
    ensures forall p :: p in db.posts && p.id == id ==> Posts(db, Some(id)) == [p]
  {
    Seqs.FilterAtMostOne(db.posts, PostHasId(id));
    var r := Posts(db, Some(id));
    if |r| == 1 {
      assert r[0] in r;
    }
  }

  /** With unique comment ids a non-empty `pk` returns the one comment with
      that id, or nothing. */
  lemma CommentsById(db: Db, pk: string)
    requires UniqueIds(db) && pk != ""
    ensures |Comments(db, Some(pk))| <= 1
    ensures HasComment(db, pk) <==> |Comments(db, Some(pk))| == 1
    ensures forall c :: c in db.comments && c.id == pk ==> Comments(db, Some(pk)) == [c]
  {
    Seqs.FilterAtMostOne(db.comments, CommentHasId(pk));
    var r := Comments(db, Some(pk));
    if |r| == 1 {
      assert r[0] in r;
    }
  }
}

=== FILE: seqs.dfy ===
/** The array primitives the resolvers are written with — `filter`, `find`,
    `findIndex` and `splice(i, 1)` — as functions over sequences, each with a
    specification that does not depend on how it is computed. */
module Seqs {
  import opened Wrappers

  /** `a` is obtained from `b` by deleting zero or more elements; the elements
      that remain keep their relative order. */
  ghost predicate IsSubsequence<T>(a: seq<T>, b: seq<T>)
    decreases |b|
  {
    if |a| == 0 then true
    else if |b| == 0 then false
    else (a[0] == b[0] && IsSubsequence(a[1..], b[1..])) || IsSubsequence(a, b[1..])
  }

  /** `r` consists of exactly the elements of `xs` that satisfy `keep`, each as
      often as it occurs in `xs`, in the order of `xs`. */
  ghost predicate Selects<T(!new)>(r: seq<T>, xs: seq<T>, keep: T -> bool)
  {
    && IsSubsequence(r, xs)
    && forall x :: multiset(r)[x] == if keep(x) then multiset(xs)[x] else 0
  }

  /** The complement of a predicate. */
  function Not<T>(f: T -> bool): T -> bool
  {
    x => !f(x)
  }

  /** `xs.filter(keep)` */
  function Filter<T(!new)>(xs: seq<T>, keep: T -> bool): (r: seq<T>)
    ensures Selects(r, xs, keep)
    ensures forall x :: x in r <==> x in xs && keep(x)
    ensures |r| <= |xs|
  {
    if |xs| == 0 then []
    else
      assert xs == [xs[0]] + xs[1..];
      if keep(xs[0]) then [xs[0]] + Filter(xs[1..], keep)
      else Filter(xs[1..], keep)
  }

  /** Element `i` is the first element of `xs` that satisfies `f`. */
  ghost predicate IsFirstAt<T>(xs: seq<T>, f: T -> bool, i: int)
  {
    && 0 <= i < |xs|
    && f(xs[i])
    && forall j :: 0 <= j < i ==> !f(xs[j])
  }

  /** `xs.findIndex(f)`: -1 when nothing matches. */
  function FindIndex<T>(xs: seq<T>, f: T -> bool): (i: int)
    ensures -1 <= i < |xs|
    ensures i == -1 <==> forall j :: 0 <= j < |xs| ==> !f(xs[j])
    ensures i != -1 ==> IsFirstAt(xs, f, i)
  {
    if |xs| == 0 then -1
    else if f(xs[0]) then 0
    else
      var k := FindIndex(xs[1..], f);
      if k == -1 then -1 else k + 1
  }

  /** `xs.find(f)`: the first element that satisfies `f`, if any. */
  function Find<T>(xs: seq<T>, f: T -> bool): (r: Option<T>)
    ensures r.None? <==> forall x :: x in xs ==> !f(x)
    ensures r.Some? ==> exists i :: IsFirstAt(xs, f, i) && xs[i] == r.value
  {
    var i := FindIndex(xs, f);
    if i == -1 then None else Some(xs[i])
  }

  /** `xs.splice(i, 1)` applied to `xs`: the element at `i` is dropped, the
      elements before it stay put and the ones after it move down by one. */
  function RemoveAt<T>(xs: seq<T>, i: int): (r: seq<T>)
    requires 0 <= i < |xs|
    ensures |r| == |xs| - 1
    ensures forall j :: 0 <= j < i ==> r[j] == xs[j]
    ensures forall j :: i <= j < |r| ==> r[j] == xs[j + 1]
  {
    xs[..i] + xs[i + 1..]
  }

  /** Filtering distributes over concatenation, which together with the
      singleton case determines `Filter` completely. */
  lemma {:induction false} FilterConcat<T(!new)>(xs: seq<T>, ys: seq<T>, keep: T -> bool)
    ensures Filter(xs + ys, keep) == Filter(xs, keep) + Filter(ys, keep)
    decreases |xs|
  {
    if |xs| == 0 {
      assert xs + ys == ys;
    } else {
      assert (xs + ys)[1..] == xs[1..] + ys;
      FilterConcat(xs[1..], ys, keep);
    }
  }

  /** Appending one element extends the filtered sequence by that element
      exactly when it is kept. */
  lemma FilterAppend<T(!new)>(xs: seq<T>, x: T, keep: T -> bool)
    ensures Filter(xs + [x], keep) == Filter(xs, keep) + (if keep(x) then [x] else [])
  {
    FilterConcat(xs, [x], keep);
    assert [x][1..] == [];
  }

  /** Filtering a sequence in which at most one element can satisfy `keep`
      yields at most one element. */
  lemma {:induction false} FilterAtMostOne<T(!new)>(xs: seq<T>, keep: T -> bool)
    requires forall i, j :: 0 <= i < j < |xs| && keep(xs[i]) ==> !keep(xs[j])
    ensures |Filter(xs, keep)| <= 1
    decreases |xs|
  {
    if |xs| > 0 {
      var tail := xs[1..];
      assert forall i, j :: 0 <= i < j < |tail| && keep(tail[i]) ==> !keep(tail[j]) by {
        forall i, j | 0 <= i < j < |tail| && keep(tail[i])
          ensures !keep(tail[j])
        {
          assert tail[i] == xs[i + 1] && tail[j] == xs[j + 1];
        }
      }
      FilterAtMostOne(tail, keep);
      if keep(xs[0]) {
        assert forall x :: x in tail ==> !keep(x) by {
          forall x | x in tail
            ensures !keep(x)
          {
            var j :| 0 <= j < |tail| && tail[j] == x;
            assert xs[j + 1] == x;
          }
        }
        assert Filter(tail, keep) == [];
      }
    }
  }

  /** When `x` is the only element that satisfies `f`, `find` returns it. */
  lemma FindUnique<T>(xs: seq<T>, f: T -> bool, k: int)
    requires 0 <= k < |xs| && f(xs[k])
    requires forall i, j :: 0 <= i < j < |xs| && f(xs[i]) ==> !f(xs[j])
    ensures Find(xs, f) == Some(xs[k])
    ensures FindIndex(xs, f) == k
  {
    var i := FindIndex(xs, f);
    assert i != -1 by {
      assert !(forall j :: 0 <= j < |xs| ==> !f(xs[j]));
    }
    assert IsFirstAt(xs, f, i);
  }

  /** Filtering depends only on the values of the predicate, not on how it
      is written. */
  lemma {:induction false} FilterExt<T(!new)>(xs: seq<T>, f: T -> bool, g: T -> bool)
    requires forall x :: x in xs ==> f(x) == g(x)
    ensures Filter(xs, f) == Filter(xs, g)
    decreases |xs|
  {
    if |xs| > 0 {
      assert forall x :: x in xs[1..] ==> x in xs;
      FilterExt(xs[1..], f, g);
    }
  }

  /** A filter that keeps every element returns its input. */
  lemma {:induction false} FilterKeepsAll<T(!new)>(xs: seq<T>, keep: T -> bool)
    requires forall x :: x in xs ==> keep(x)
    ensures Filter(xs, keep) == xs
    decreases |xs|
  {
    if |xs| > 0 {
      assert keep(xs[0]);
      assert forall x :: x in xs[1..] ==> x in xs;
      FilterKeepsAll(xs[1..], keep);
      assert Filter(xs, keep) == [xs[0]] + Filter(xs[1..], keep);
      assert xs == [xs[0]] + xs[1..];
    }
  }

  /** A filter that keeps nothing returns the empty sequence. */
  lemma {:induction false} FilterKeepsNone<T(!new)>(xs: seq<T>, keep: T -> bool)
    requires forall x :: x in xs ==> !keep(x)
    ensures Filter(xs, keep) == []
    decreases |xs|
  {
    if |xs| > 0 {
      assert xs[0] in xs;
      assert forall x :: x in xs[1..] ==> x in xs;
      FilterKeepsNone(xs[1..], keep);
    }
  }

  /** Removing one element leaves a subsequence: the others keep their order. */
  lemma {:induction false} RemoveAtIsSubsequence<T>(xs: seq<T>, i: int)
    requires 0 <= i < |xs|
    ensures IsSubsequence(RemoveAt(xs, i), xs)
    decreases |xs|
  {
    var r := RemoveAt(xs, i);
    if i == 0 {
      assert r == xs[1..];
      SubsequenceRefl(xs[1..]);
    } else {
      RemoveAtIsSubsequence(xs[1..], i - 1);
      assert r[1..] == RemoveAt(xs[1..], i - 1);
    }
  }

  /** Every sequence is a subsequence of itself. */
  lemma {:induction false} SubsequenceRefl<T>(xs: seq<T>)
    ensures IsSubsequence(xs, xs)
    decreases |xs|
  {
    if |xs| > 0 {
      SubsequenceRefl(xs[1..]);
    }
  }

  /** Removing one element removes exactly one occurrence of it. */
  lemma RemoveAtMultiset<T>(xs: seq<T>, i: int)
    requires 0 <= i < |xs|
    ensures multiset(RemoveAt(xs, i)) + multiset{xs[i]} == multiset(xs)
  {
    assert xs == xs[..i] + [xs[i]] + xs[i + 1..];
  }

  /** No two elements of `xs` share a key. */
  ghost predicate KeysDistinct<T, K>(xs: seq<T>, key: T -> K)
  {
    forall i, j :: 0 <= i < j < |xs| ==> key(xs[i]) != key(xs[j])
  }

  /** Every element of a subsequence is an element of the whole. */
  lemma {:induction false} SubsequenceMembers<T>(a: seq<T>, b: seq<T>)
    requires IsSubsequence(a, b)
    ensures forall x :: x in a ==> x in b
    decreases |b|
  {
    if |a| > 0 {
      if a[0] == b[0] && IsSubsequence(a[1..], b[1..]) {
        SubsequenceMembers(a[1..], b[1..]);
        assert forall x :: x in a ==> x == a[0] || x in a[1..];
      } else {
        SubsequenceMembers(a, b[1..]);
      }
    }
  }

  /** Dropping elements cannot make two keys collide. */
  lemma {:induction false} SubsequenceKeepsKeysDistinct<T, K>(a: seq<T>, b: seq<T>, key: T -> K)
    requires IsSubsequence(a, b) && KeysDistinct(b, key)
    ensures KeysDistinct(a, key)
    decreases |b|
  {
    if |a| > 0 {
      assert KeysDistinct(b[1..], key) by {
        forall i, j | 0 <= i < j < |b[1..]|
          ensures key(b[1..][i]) != key(b[1..][j])
        {
          assert b[1..][i] == b[i + 1] && b[1..][j] == b[j + 1];
        }
      }
      if a[0] == b[0] && IsSubsequence(a[1..], b[1..]) {
        SubsequenceKeepsKeysDistinct(a[1..], b[1..], key);
        SubsequenceMembers(a[1..], b[1..]);
        forall i, j | 0 <= i < j < |a|
          ensures key(a[i]) != key(a[j])
        {
          if i == 0 {
            assert a[j] in a[1..] by {
              assert a[1..][j - 1] == a[j];
            }
            var k :| 0 <= k < |b[1..]| && b[1..][k] == a[j];
            assert b[k + 1] == a[j];
          } else {
            assert a[1..][i - 1] == a[i] && a[1..][j - 1] == a[j];
          }
        }
      } else {
        SubsequenceKeepsKeysDistinct(a, b[1..], key);
      }
    }
  }

  /** Appending an element whose key is new keeps the keys distinct. */
  lemma AppendKeepsKeysDistinct<T, K>(xs: seq<T>, x: T, key: T -> K)
    requires KeysDistinct(xs, key)
    requires forall i :: 0 <= i < |xs| ==> key(xs[i]) != key(x)
    ensures KeysDistinct(xs + [x], key)
  {
    var ys := xs + [x];
    forall i, j | 0 <= i < j < |ys|
      ensures key(ys[i]) != key(ys[j])
    {
      assert ys[i] == xs[i];
    }
  }

  /** Removing the element at `i` keeps every element at another position. */
  lemma RemoveAtKeepsOthers<T>(xs: seq<T>, i: int)
    requires 0 <= i < |xs|
    ensures forall k :: 0 <= k < |xs| && k != i ==> xs[k] in RemoveAt(xs, i)
    ensures forall x :: x in RemoveAt(xs, i) ==> x in xs
  {
    var r := RemoveAt(xs, i);
    forall k | 0 <= k < |xs| && k != i
      ensures xs[k] in r
    {
      if k < i {
        assert r[k] == xs[k];
      } else {
        assert r[k - 1] == xs[k];
      }
    }
  }
}

=== FILE: text.dfy ===
/** The two string operations of the `users` query: `toLowerCase` restricted
    to ASCII letters, and `includes` (substring search). */
module Text {

  predicate IsUpper(c: char)
  {
    'A' <= c <= 'Z'
  }

  function LowerChar(c: char): (d: char)
    ensures !IsUpper(d)
    ensures IsUpper(c) ==> d as int == c as int + 32
    ensures !IsUpper(c) ==> d == c
  {
    if IsUpper(c) then (c as int + 32) as char else c
  }

  /** `s.toLowerCase()` on ASCII text: every upper-case letter is replaced by
      its lower-case partner and nothing else changes. */
  function Lower(s: string): (r: string)
    ensures |r| == |s|
    ensures forall i :: 0 <= i < |s| ==> r[i] == LowerChar(s[i])
    ensures forall i :: 0 <= i < |r| ==> !IsUpper(r[i])
  {
    seq(|s|, i requires 0 <= i < |s| => LowerChar(s[i]))
  }

  /** `sub` occurs in `s` starting at position `i`. */
  predicate OccursAt(s: string, sub: string, i: int)
  {
    0 <= i && i + |sub| <= |s| && s[i..i + |sub|] == sub
  }

  /** `s.includes(sub)` */
  function Includes(s: string, sub: string): (b: bool)
    ensures b <==> exists i :: OccursAt(s, sub, i)
    decreases |s|
  {
    if sub <= s then
      assert OccursAt(s, sub, 0);
      true
    else if |s| == 0 then
      false
    else
      var b := Includes(s[1..], sub);
      assert forall i :: OccursAt(s[1..], sub, i) <==> OccursAt(s, sub, i + 1);
      assert !OccursAt(s, sub, 0);
      assert forall i :: OccursAt(s, sub, i) ==> OccursAt(s[1..], sub, i - 1);
      b
  }

  /** Lower-casing twice is lower-casing once. */
  lemma LowerIdempotent(s: string)
    ensures Lower(Lower(s)) == Lower(s)
  {
  }

  /** Every string includes the empty string and itself. */
  lemma IncludesEmptyAndSelf(s: string)
    ensures Includes(s, "")
    ensures Includes(s, s)
  {
    assert OccursAt(s, "", 0);
    assert OccursAt(s, s, 0);
  }
}

=== FILE: wrappers.dfy ===
/** Failure-carrying values used by the resolvers: a JavaScript `undefined`
    result becomes `None`, a thrown `Error` becomes `Failure`. */
module Wrappers {

  datatype Option<+T> = None | Some(value: T)

  datatype Result<+R, +E> = Success(value: R) | Failure(error: E)
}
